=== FILE: README.md ===
# Journey to Bennu: the per-tick game rules in Dafny

Journey to Bennu is a small pygame arcade shooter. The player's spacecraft
moves with the arrow keys and fires red lasers upward with the space bar.
Waves of asteroids and Starlink satellites fall from above the window. Each
wave is two obstacles longer than the one before. An obstacle that falls past
the bottom edge costs a life. One that touches the spacecraft costs 10 health.
When lives or health run out, the game shows a loss message for three seconds
and then ends.

This project models the game rules of `journey_to_bennu.py` as immutable
records and pure step functions:

- `screen.dfy` (`Screen`): window constants, sprite identities, the obstacle
  colour table, and `collide`. The pixel-mask overlap test and sprite sizes
  are fields of a `Platform` record that the graphics layer supplies.
- `lasers.dfy` (`Lasers`): `Laser.move`, `off_screen` and `collision`.
- `cooldown.dfy` (`Cooldown`): the shot-cooldown counter.
- `actors.dfy` (`Actors`): the common actor record (`Object`, `Player`,
  `Obstacle`), `shoot`, and `Obstacle.move`.
- `sweep.dfy` (`Sweep`): `Object.move_lasers`, as a recursive function and as
  a loop that mirrors Python's list iterator.
- `player_fire.dfy` (`PlayerFire`): `Player.move_lasers`.
- `game.dfy` (`Game`): the session record and one iteration of `main`'s loop.
  This covers wave spawning, the loss flag and timer, movement, firing, the
  obstacle pass and the player's lasers. It also defines a session invariant
  and multi-tick runs.
- `seqs.dfy` (`Seqs`): order-preserving sub-lists.

Behaviour of the code that the model keeps on purpose:

- `move_lasers` and `Player.move_lasers` call `list.remove` on the list their
  `for` loop is walking. Python's iterator walks by index, so the element right
  after each removed one is stepped over for that tick. A stepped-over laser is
  not moved or checked. In the inner loop, a stepped-over obstacle is not
  checked against that laser. The model does the same. `Sweep.IterationTrace`,
  `PlayerFire.StrikeTrace` and `PlayerFire.VolleyTrace` state the index rule;
  `Sweep.MoveLasersLoop` runs the Python loop step by step. The obstacle pass
  in `main` walks a copy (`obstacles[:]`), so it skips nothing.
- In the obstacle pass, an obstacle can both fall past the bottom and touch the
  player. It is then removed twice, and the second `obstacles.remove` raises.
  The model returns `Err(RemoveAbsent)` for that tick.
- Health is never clamped, so it can go below 0.
- `off_screen` includes both boundary rows. A laser falling at speed `v` from
  row `y` therefore leaves the screen after `(height - y) / v + 1` moves, one
  more than `ceil((height - y) / v)` whenever `v` divides `height - y`.
- On the tick the loss timer runs out (`lost_count > fps * 3`), `run` is set
  to false, but the rest of the loop body still runs before the loop exits.
- While the game is lost, a tick still spawns a wave if the obstacle list is
  empty, because the spawn check comes before the loss check.

## Model

| member | source | states |
|---|---|---|
| Screen.CollideSymmetric | journey_to_bennu.py:195-198 | if the masks are symmetric, `collide(a, b)` equals `collide(b, a)`: the offset is item2 minus item1 |
| Lasers.HitsOffset | journey_to_bennu.py:72-73 | `laser.collision(item)` tests the item first: the laser's mask sits at the laser's position minus the item's; with symmetric masks the order does not matter |
| Lasers.FlyDisplacement | journey_to_bennu.py:63-65 | `move` changes only `y`, by exactly the velocity per call |
| Lasers.OffScreenBoundary | journey_to_bennu.py:68-69 | off screen iff `y < 0` or `y > height`; rows 0 and `height` are on screen, rows -1 and `height + 1` are not |
| Lasers.RisingLaserLeaves | journey_to_bennu.py:63-69 | a laser rising at speed s from an on-screen row y is off screen after `y / s + 1` moves and on screen after every earlier number of moves |
| Lasers.FallingLaserLeaves | journey_to_bennu.py:63-69 | a falling laser is off screen after `(height - y) / s + 1` moves and not before |
| Cooldown.TickCases | journey_to_bennu.py:112-116 | the counter stays at 0, counts up from 1..29, and resets to 0 at or above COOLDOWN (30) |
| Cooldown.TicksStayInRange | journey_to_bennu.py:112-116 | a counter in [0, 30] stays in [0, 30] for any number of ticks |
| Cooldown.ReadyAfterCooldown | journey_to_bennu.py:112-116 | from 1 the counter reads n + 1 after n < 30 ticks and is 0 after exactly 30 ticks, never earlier |
| Actors.Shoot | journey_to_bennu.py:118-123 | a laser at the actor's (x, y) is appended iff the counter was 0, and the counter becomes 1; otherwise lasers and counter are unchanged; nothing else changes; the gun is always locked afterwards |
| Actors.Fall | journey_to_bennu.py:190-192 | an obstacle moves only vertically, by exactly the velocity; nothing else about it changes |
| Actors.HoldFireShots | journey_to_bennu.py:112-123 | holding fire for n ticks from a ready gun appends exactly ceil(n / 30) lasers, after the existing ones; a tick of `Game.Play` does exactly one `FireTick` to the counter (`Game.PlaySpec`) |
| Sweep.SweepLasers | journey_to_bennu.py:100-110 | the surviving lasers plus the hits never outnumber the lasers the loop started with |
| Sweep.TraceFollowsIteration | journey_to_bennu.py:102-110 | the loop's trace obeys the iterator rule: the first laser is visited; a laser is skipped iff the one before was visited and removed; a visited laser's fate is decided by where it lands |
| Sweep.IterationTraceUnique | journey_to_bennu.py:102-110 | the iterator rule admits exactly one trace |
| Sweep.MoveLasersFollowsIteration | journey_to_bennu.py:100-110 | the cooldown ticks once; visited lasers move by the velocity; visited lasers off screen are removed without damage; visited lasers that overlap the target are removed and cost it exactly 10 each; lasers that miss the target stay, moved; skipped lasers stay unmoved; all in order; nothing else changes |
| Sweep.MoveLasersLoop | journey_to_bennu.py:100-110 | the index-based loop, which mutates and deletes in place, computes the same actor and target as the recursive model |
| Sweep.UnarmedSweepIsIdle | journey_to_bennu.py:100-116 | an actor with no lasers and a ready counter (every obstacle) changes neither itself nor the target |
| PlayerFire.Strike | journey_to_bennu.py:154-159 | the laser is removed iff it overlaps at least one obstacle of the list; if it is removed, at least one obstacle is gone; otherwise the list is unchanged (which obstacles go is `PlayerFire.StrikeFollowsIteration`) |
| PlayerFire.StrikeBounds | journey_to_bennu.py:154-159 | the remaining obstacles are a sub-list of the original, in order and unaltered, and include every obstacle the laser does not overlap |
| PlayerFire.MarksFollowIteration | journey_to_bennu.py:154-159 | the inner loop over the obstacles follows the iterator rule: obstacle 0 is visited; one is stepped over iff the one before was destroyed; a visited one is destroyed iff the laser touches it |
| PlayerFire.StrikeFollowsIteration | journey_to_bennu.py:154-159 | for every trace the iterator rule allows, the obstacles left are exactly the ones not destroyed, in order, and the laser is removed iff it destroyed at least one |
| PlayerFire.PlayerSweep | journey_to_bennu.py:146-159 | lasers and obstacles never grow; if no laser was removed, no obstacle was removed (which lasers and obstacles survive is `PlayerFire.PlayerSweepFollowsIteration`) |
| PlayerFire.VolleysFollowIteration | journey_to_bennu.py:146-159 | the outer loop follows the iterator rule: the first laser is visited; a laser is skipped iff the one before was visited and removed; a visited laser leaves the screen, or destroys what it touches in the list standing at that moment, or stays |
| PlayerFire.PlayerSweepFollowsIteration | journey_to_bennu.py:146-159 | for every trace the iterator rule allows, the lasers left are the skipped ones unmoved and the kept ones moved, in order; every laser that left the screen or destroyed an obstacle is gone; the obstacles left are the list after the last laser's strike |
| PlayerFire.PlayerMoveLasersFollowsIteration | journey_to_bennu.py:146-159 | `Player.move_lasers` ticks the counter once, keeps the lasers the iterator rule lets survive, changes nothing else about the player, and leaves the obstacle list after the last strike |
| PlayerFire.PlayerSweepBounds | journey_to_bennu.py:146-159 | obstacles are only deleted, in order; an obstacle that no moved laser of the volley overlaps survives |
| PlayerFire.EmptySkyMatchesSweep | journey_to_bennu.py:100-110 | with nothing to hit, `Player.move_lasers` leaves the same lasers as `Object.move_lasers` against a target none of them hits |
| Game.Wave | journey_to_bennu.py:273-276 | a wave of n has exactly max(n, 0) fresh obstacles with health 100, no lasers, x in [50, 800), y in [-1500, -100), and the image of the drawn colour |
| Game.SpawnIfCleared | journey_to_bennu.py:267-276 | only when the list is empty: level + 1, wavelength + 2, and exactly `wavelength` obstacles in the spawn band; otherwise the session is unchanged; player, lives and loss state are never touched |
| Game.WaveSize | journey_to_bennu.py:267-276 | in every valid session the wave spawned on reaching level n has 5 + 2n obstacles |
| Game.SteerSpec | journey_to_bennu.py:301-308 | only the position changes; one arrow key moves exactly 5 pixels iff the destination keeps `x > 0`, `x + w < WIDTH`, `y > 0` or `y + h + 15 < HEIGHT`; each of these bounds, once true, stays true |
| Game.ObstaclePassSpec | journey_to_bennu.py:313-324 | the pass raises iff some obstacle both sinks and rams; otherwise every obstacle moves down by 1, each sinking one costs exactly one life, each ramming one costs exactly 10 health, both kinds are removed, and the rest stay in order |
| Game.PlaySpec | journey_to_bennu.py:298-328 | the gameplay half of a tick only lowers lives and health, keeps the shot counter in [0, 30] and every obstacle unarmed, and leaves level, wavelength and loss state alone; the shot counter sees exactly one `shoot` (when space is held, line 311) and then one cooldown tick (line 147, via line 328) |
| Game.PlayComposes | journey_to_bennu.py:298-328 | a gameplay tick steers the player, fires when space is held, runs the obstacle pass and then flies the player's lasers up through the survivors: it raises iff some obstacle both sinks and rams; otherwise lives drop by the sinking count, health by 10 per ramming obstacle, the player stands where steering put it, and lasers and obstacles are what `Player.move_lasers` leaves |
| Game.StartValid | journey_to_bennu.py:202-231 | the starting state satisfies the session invariant |
| Game.StepSpec | journey_to_bennu.py:262-328 | a tick of a running valid session keeps the invariant; lives and health never rise; `lost` is never cleared; the level rises by at most one |
| Game.RunValid | journey_to_bennu.py:262-328 | any number of ticks keeps the session invariant |
| Game.LostTickFreezes | journey_to_bennu.py:267-288 | while lost and within the timer, a tick does nothing but spawn a wave into an empty list and increment `lost_count`: no movement, firing, obstacle pass or laser update; the session keeps running |
| Game.LossTimerRuns | journey_to_bennu.py:279-288 | once lives or health are at 0 or below, each of the next 180 ticks sets `lost`, increments `lost_count` by one, and keeps `run` true |
| Game.LossTimerExpires | journey_to_bennu.py:279-288 | the tick that takes `lost_count` to 181 sets `run` to false |

## Left out

- Drawing (`draw`, `healthbar`, `redraw_window`), image loading, the window, fonts and text: rendering with no game rule in it. The health bar's width is a float used only for drawing.
- The pygame mask overlap inside `collide` and the image sizes (`get_width`, `get_height`): these come from the graphics library. They are the `overlap`, `width` and `height` fields of `Platform`. Nothing is assumed about them except, for `Screen.CollideSymmetric`, that masks are symmetric.
- `random.randrange` and `random.choice`: each tick gets a function from obstacle index to a `Draw`, with the ranges as a precondition. The colour is a closed four-value type.
- `clock.tick`, `pygame.event.get` with its QUIT handling (which exits Python), `pygame.key.get_pressed` and `main_menu`: the clock and input plumbing. The keys held are a `Keys` record.
- `score_value` and `Player.max_health`: the first never changes; the second is used only by the health bar.
- An obstacle's `laser_img` is `None`, and only the player ever calls `shoot`. So every laser in the model uses the red laser image, and obstacles never own lasers.
- Game.ObstaclePassSpec: stated only for obstacles that own no lasers and have a ready counter. The source never creates any other kind (`Game.StepSpec` keeps that invariant). `ObstaclePass` itself still runs each obstacle's laser update, as the source does.
- PlayerFire.PlayerSweepBounds: the lower bound (an untouched obstacle survives) is stated by membership, not by position. Obstacles that are equal as values are not told apart.
- Game.LossTimerExpires: says nothing when that last tick raises, because the rest of the loop body runs on that tick.

=== FILE: actors.dfy ===
/** The actors: the player's spacecraft and the falling obstacles share one
    record; the sprite tells them apart. */
module Actors {
  import opened Screen
  import opened Lasers
  import Cooldown

  /** Position, health (not clamped: it can go below 0), image, owned lasers
      and the shot-cooldown counter. */
  datatype Actor = Actor(x: int, y: int, health: int, sprite: Sprite, lasers: seq<Laser>, coolDown: int)

  /** Health every actor is created with. */
  const INITIAL_HEALTH: int := 100

  /** Health one hit costs, from a laser or from a body collision. */
  const DAMAGE: int := 10

  function NewPlayer(x: int, y: int): Actor
  {
    Actor(x, y, INITIAL_HEALTH, Spacecraft, [], 0)
  }

  /** `Obstacle(x, y, color)`: the colour picks the image. */
  function NewObstacle(x: int, y: int, colour: Colour): Actor
  {
    Actor(x, y, INITIAL_HEALTH, ColourSprite(colour), [], 0)
  }

  /** An actor that has never shot and whose gun is ready: every obstacle,
      since only the player ever shoots. */
  predicate Unarmed(a: Actor)
  {
    a.lasers == [] && a.coolDown == 0
  }

  /** `Object.cooldown` applied to the actor's counter. */
  function CoolDown(a: Actor): Actor
  {
    a.(coolDown := Cooldown.Tick(a.coolDown))
  }

  /** `Object.shoot`: fires only when the counter is 0; the new laser starts at
      the actor's position and the gun is locked afterwards. */
  function Shoot(a: Actor): (r: Actor)
    ensures r.coolDown != 0
    ensures a.coolDown == 0 ==> r.coolDown == 1
    ensures a.coolDown != 0 ==> r.coolDown == a.coolDown
    ensures |r.lasers| == |a.lasers| + 1 <==> a.coolDown == 0
    ensures a.coolDown != 0 ==> r.lasers == a.lasers
    ensures a.coolDown == 0 ==> r.lasers[..|a.lasers|] == a.lasers && r.lasers[|a.lasers|] == Laser(a.x, a.y)
    ensures r.(lasers := a.lasers, coolDown := a.coolDown) == a
  {
    if a.coolDown == 0 then
      a.(lasers := a.lasers + [Laser(a.x, a.y)], coolDown := 1)
    else
      a
  }

  /** `Obstacle.move`: the obstacle only ever moves vertically. */
  function Fall(o: Actor, velocity: int): (r: Actor)
    ensures r.y - o.y == velocity
    ensures r.(y := o.y) == o
  {
    o.(y := o.y + velocity)
  }

  /** One tick with the fire key held, seen from the gun alone: `shoot`, then
      the cooldown tick the laser update performs. */
  function FireTick(a: Actor): Actor
  {
    CoolDown(Shoot(a))
  }

  function HoldFire(a: Actor, n: nat): Actor
    decreases n
  {
    if n == 0 then a else HoldFire(FireTick(a), n - 1)
  }

  lemma {:induction false} HoldFireSplit(a: Actor, i: nat, j: nat)
    ensures HoldFire(a, i + j) == HoldFire(HoldFire(a, i), j)
    decreases i
  {
    if i > 0 {
      HoldFireSplit(FireTick(a), i - 1, j);
    }
  }

  /** While the gun recharges it fires nothing and the counter climbs to
      COOLDOWN, then drops to 0. */
  lemma {:induction false} Recharge(a: Actor, m: nat)
    requires 2 <= a.coolDown <= Cooldown.COOLDOWN && a.coolDown + m <= Cooldown.COOLDOWN + 1
    ensures HoldFire(a, m).lasers == a.lasers
    ensures HoldFire(a, m).coolDown == (if a.coolDown + m <= Cooldown.COOLDOWN then a.coolDown + m else 0)
    decreases m
  {
    if m > 0 {
      if a.coolDown < Cooldown.COOLDOWN {
        Recharge(FireTick(a), m - 1);
      }
    }
  }

  /** Holding fire for `n` ticks from a ready gun fires on tick 0, COOLDOWN,
      2 * COOLDOWN, ...: ceil(n / COOLDOWN) lasers in all. A second press within
      COOLDOWN ticks of a shot fires nothing. */
  lemma {:induction false} HoldFireShots(a: Actor, n: nat)
    requires a.coolDown == 0
    ensures |HoldFire(a, n).lasers| == |a.lasers| + (n + Cooldown.COOLDOWN - 1) / Cooldown.COOLDOWN
    ensures HoldFire(a, n).lasers[..|a.lasers|] == a.lasers
    decreases n
  {
    if n > 0 {
      var b := FireTick(a);
      assert b.coolDown == 2 && b.lasers == a.lasers + [Laser(a.x, a.y)];
      if n - 1 <= Cooldown.COOLDOWN - 1 {
        Recharge(b, n - 1);
      } else {
        Recharge(b, Cooldown.COOLDOWN - 1);
        var c := HoldFire(b, Cooldown.COOLDOWN - 1);
        HoldFireSplit(b, Cooldown.COOLDOWN - 1, n - Cooldown.COOLDOWN);
        HoldFireShots(c, n - Cooldown.COOLDOWN);
        assert c.lasers[..|a.lasers|] == a.lasers;
      }
    }
  }
}

=== FILE: cooldown.dfy ===
/** The shot-cooldown counter every actor carries: 0 means ready, 1..COOLDOWN
    counts ticks since the last shot. */
module Cooldown {

  /** Half the frame rate: half a second between shots. */
  const COOLDOWN: int := 30

  /** `Object.cooldown`, called once per tick. */
  function Tick(c: int): int
  {
    if c >= COOLDOWN then 0
    else if c > 0 then c + 1
    else c
  }

  /** The counter after `n` ticks. */
  function Ticks(c: int, n: nat): int
    decreases n
  {
    if n == 0 then c else Ticks(Tick(c), n - 1)
  }

  /** The three branches: 0 stays 0 (ready), 1..29 counts up, anything at or
      above COOLDOWN drops back to ready. */
  lemma TickCases(c: int)
    requires c >= 0
    ensures c == 0 ==> Tick(c) == 0
    ensures 0 < c < COOLDOWN ==> Tick(c) == c + 1
    ensures c >= COOLDOWN ==> Tick(c) == 0
  {
  }

  /** A counter in [0, COOLDOWN] stays there for any number of ticks. */
  lemma {:induction false} TicksStayInRange(c: int, n: nat)
    requires 0 <= c <= COOLDOWN
    ensures 0 <= Ticks(c, n) <= COOLDOWN
    decreases n
  {
    if n > 0 {
      TicksStayInRange(Tick(c), n - 1);
    }
  }

  /** From a running count `c`, the counter climbs one per tick up to COOLDOWN
      and is back at 0 on the tick after. */
  lemma {:induction false} TicksFromRunning(c: int, n: nat)
    requires 1 <= c <= COOLDOWN && c + n <= COOLDOWN + 1
    ensures Ticks(c, n) == (if c + n <= COOLDOWN then c + n else 0)
    decreases n
  {
    if n > 0 {
      if c == COOLDOWN {
        assert n == 1;
      } else {
        TicksFromRunning(c + 1, n - 1);
      }
    }
  }

  /** Just after a shot (counter 1) the gun is locked for the next
      COOLDOWN - 1 ticks and ready again after exactly COOLDOWN ticks. */
  lemma ReadyAfterCooldown(n: nat)
    requires n <= COOLDOWN
    ensures Ticks(1, n) == 0 <==> n == COOLDOWN
    ensures n < COOLDOWN ==> Ticks(1, n) == n + 1
  {
    TicksFromRunning(1, n);
  }
}

=== FILE: game.dfy ===
/** The session state and one tick of the state-update part of `main`: wave
    spawning, the loss flag and timer, arrow-key movement, firing, the obstacle
    pass and the player's lasers. Drawing, event polling and the clock are not
    part of it; the keys held and the random draws of the tick are inputs. */
module Game {
  import opened Screen
  import opened Actors
  import opened Seqs
  import Cooldown
  import Sweep
  import PlayerFire

  /** Pixels per tick: player movement, obstacle fall, laser flight. */
  const PLAYER_VEL: int := 5
  const OBSTACLE_VEL: int := 1
  const LASER_VEL: int := 6

  const START_LIVES: int := 5
  const START_WAVELENGTH: int := 5
  const WAVE_GROWTH: int := 2

  /** Room kept free under the player's sprite for its health bar. */
  const BAR_MARGIN: int := 15

  /** The loss message stays up for three seconds of ticks. */
  const LOSS_TICKS: int := FPS * 3

  /** The keys held this tick. */
  datatype Keys = Keys(left: bool, right: bool, up: bool, down: bool, space: bool)

  /** The random values behind one obstacle of a new wave. */
  datatype Draw = Draw(x: int, y: int, colour: Colour)

  /** `random.randrange(50, WIDTH - 100)` and `random.randrange(-1500, -100)`. */
  predicate DrawInRange(d: Draw)
  {
    50 <= d.x < WIDTH - 100 && -1500 <= d.y < -100
  }

  ghost predicate DrawsInRange(wave: nat -> Draw)
  {
    forall i: nat :: DrawInRange(wave(i))
  }

  /** One tick's inputs: keys held, and the draws for the i-th obstacle of a
      wave, used only if a wave is spawned this tick. */
  datatype TickInput = TickInput(keys: Keys, wave: nat -> Draw)

  datatype Session = Session(
    player: Actor,
    obstacles: seq<Actor>,
    level: int,
    wavelength: int,
    lives: int,
    lost: bool,
    lostCount: int,
    run: bool)

  /** The one runtime error the rules can raise: `obstacles.remove` of an
      obstacle that was already removed (a `ValueError` in Python). */
  datatype Fault = RemoveAbsent

  datatype Result<T> = Ok(value: T) | Err(fault: Fault)

  /** The state `main` starts from. */
  function Start(): Session
  {
    Session(NewPlayer(300, 650), [], 0, START_WAVELENGTH, START_LIVES, false, 0, true)
  }

  /** The obstacles of a new wave of `n`; `range(n)` is empty when n <= 0. */
  function Wave(wave: nat -> Draw, n: int): (r: seq<Actor>)
    requires DrawsInRange(wave)
    ensures |r| == if n > 0 then n else 0
    ensures forall i :: 0 <= i < |r| ==>
      && Unarmed(r[i]) && r[i].health == INITIAL_HEALTH
      && 50 <= r[i].x < WIDTH - 100 && -1500 <= r[i].y < -100
      && r[i].sprite == ColourSprite(wave(i).colour)
  {
    seq(if n > 0 then n else 0, i requires 0 <= i => NewObstacle(wave(i).x, wave(i).y, wave(i).colour))
  }

  /** When the obstacle list is empty: next level, a longer wave, and that
      many fresh obstacles above the top edge. Otherwise nothing. */
  function SpawnIfCleared(s: Session, wave: nat -> Draw): (r: Session)
    requires DrawsInRange(wave)
    ensures |s.obstacles| != 0 ==> r == s
    ensures |s.obstacles| == 0 ==>
      && r.level == s.level + 1
      && r.wavelength == s.wavelength + WAVE_GROWTH
      && |r.obstacles| == (if r.wavelength > 0 then r.wavelength else 0)
      && (forall o :: o in r.obstacles ==> Unarmed(o) && 50 <= o.x < WIDTH - 100 && -1500 <= o.y < -100)
    ensures r.(level := s.level, wavelength := s.wavelength, obstacles := s.obstacles) == s
  {
    if |s.obstacles| == 0 then
      var w := s.wavelength + WAVE_GROWTH;
      s.(level := s.level + 1, wavelength := w, obstacles := s.obstacles + Wave(wave, w))
    else
      s
  }

  /** Out of lives or health: the game is lost and the loss timer counts. */
  function CheckLoss(s: Session): Session
  {
    if s.lives <= 0 || s.player.health <= 0 then s.(lost := true, lostCount := s.lostCount + 1)
    else s
  }

  /** Arrow keys, applied in the order left, right, up, down; each moves the
      player PLAYER_VEL pixels only if the sprite stays inside the window
      (with BAR_MARGIN spare at the bottom). */
  function Steer(p: Platform, pl: Actor, keys: Keys): Actor
  {
    var w := p.width(pl.sprite);
    var h := p.height(pl.sprite);
    var x1 := if keys.left && pl.x - PLAYER_VEL > 0 then pl.x - PLAYER_VEL else pl.x;
    var x2 := if keys.right && x1 + PLAYER_VEL + w < WIDTH then x1 + PLAYER_VEL else x1;
    var y1 := if keys.up && pl.y - PLAYER_VEL > 0 then pl.y - PLAYER_VEL else pl.y;
    var y2 := if keys.down && y1 + PLAYER_VEL + h + BAR_MARGIN < HEIGHT then y1 + PLAYER_VEL else y1;
    pl.(x := x2, y := y2)
  }

  /** Movement only changes the position; a single arrow key moves exactly
      PLAYER_VEL exactly when the destination respects that key's bound; and
      each of the four bounds, once it holds, keeps holding. */
  lemma SteerSpec(p: Platform, pl: Actor, keys: Keys)
    ensures var r := Steer(p, pl, keys);
      var w := p.width(pl.sprite);
      var h := p.height(pl.sprite);
      && r == pl.(x := r.x, y := r.y)
      && r.x - pl.x in {-PLAYER_VEL, 0, PLAYER_VEL}
      && r.y - pl.y in {-PLAYER_VEL, 0, PLAYER_VEL}
      && (!keys.left && !keys.right ==> r.x == pl.x)
      && (!keys.up && !keys.down ==> r.y == pl.y)
      && (keys.left && !keys.right ==> (r.x == pl.x - PLAYER_VEL <==> pl.x - PLAYER_VEL > 0))
      && (keys.right && !keys.left ==> (r.x == pl.x + PLAYER_VEL <==> pl.x + PLAYER_VEL + w < WIDTH))
      && (keys.up && !keys.down ==> (r.y == pl.y - PLAYER_VEL <==> pl.y - PLAYER_VEL > 0))
      && (keys.down && !keys.up ==> (r.y == pl.y + PLAYER_VEL <==> pl.y + PLAYER_VEL + h + BAR_MARGIN < HEIGHT))
      && (pl.x > 0 ==> r.x > 0)
      && (pl.x + w < WIDTH ==> r.x + w < WIDTH)
      && (pl.y > 0 ==> r.y > 0)
      && (pl.y + h + BAR_MARGIN < HEIGHT ==> r.y + h + BAR_MARGIN < HEIGHT)
  {
  }

  datatype Pass = Pass(obstacles: seq<Actor>, player: Actor, lives: int)

  /** The obstacle pass of `main`, over a snapshot of the list: each obstacle
      falls, runs its own laser update against the player, costs a life and is
      removed if its lower edge is below the window, and costs the player
      DAMAGE and is removed if it touches the player. An obstacle that does both
      is removed twice, which raises. */
  function ObstaclePass(p: Platform, obs: seq<Actor>, pl: Actor, lives: int): Result<Pass>
    decreases |obs|
  {
    if obs == [] then Ok(Pass([], pl, lives))
    else
      var o1 := Fall(obs[0], OBSTACLE_VEL);
      var (o2, pl1) := Sweep.MoveLasers(p, o1, LASER_VEL, pl);
      var fell := o2.y + p.height(o2.sprite) > HEIGHT;
      var rams := Collide(p, o2.sprite, o2.x, o2.y, pl1.sprite, pl1.x, pl1.y);
      if fell && rams then Err(RemoveAbsent)
      else
        var lives1 := if fell then lives - 1 else lives;
        var pl2 := if rams then pl1.(health := pl1.health - DAMAGE) else pl1;
        match ObstaclePass(p, obs[1..], pl2, lives1)
        case Err(e) => Err(e)
        case Ok(rest) => Ok(rest.(obstacles := (if fell || rams then [] else [o2]) + rest.obstacles))
  }

  /** This tick's fall takes the obstacle's lower edge below the window. */
  predicate Sinks(p: Platform, o: Actor)
  {
    o.y + OBSTACLE_VEL + p.height(o.sprite) > HEIGHT
  }

  /** After this tick's fall the obstacle touches the player. */
  predicate Rams(p: Platform, o: Actor, pl: Actor)
  {
    Collide(p, o.sprite, o.x, o.y + OBSTACLE_VEL, pl.sprite, pl.x, pl.y)
  }

  function CountSinking(p: Platform, obs: seq<Actor>): nat
  {
    if obs == [] then 0 else (if Sinks(p, obs[0]) then 1 else 0) + CountSinking(p, obs[1..])
  }

  function CountRamming(p: Platform, obs: seq<Actor>, pl: Actor): nat
  {
    if obs == [] then 0 else (if Rams(p, obs[0], pl) then 1 else 0) + CountRamming(p, obs[1..], pl)
  }

  /** The obstacles that neither sink nor ram, each moved down by OBSTACLE_VEL. */
  function Remaining(p: Platform, obs: seq<Actor>, pl: Actor): seq<Actor>
  {
    if obs == [] then []
    else
      (if Sinks(p, obs[0]) || Rams(p, obs[0], pl) then [] else [Fall(obs[0], OBSTACLE_VEL)])
      + Remaining(p, obs[1..], pl)
  }

  /** Some obstacle both sinks and rams this tick, so it would be removed twice. */
  predicate RemovedTwice(p: Platform, obs: seq<Actor>, pl: Actor)
  {
    exists i :: 0 <= i < |obs| && Sinks(p, obs[i]) && Rams(p, obs[i], pl)
  }

  lemma RemovedTwiceCons(p: Platform, obs: seq<Actor>, pl: Actor, pl': Actor)
    requires obs != [] && pl'.x == pl.x && pl'.y == pl.y && pl'.sprite == pl.sprite
    ensures RemovedTwice(p, obs, pl)
      <==> (Sinks(p, obs[0]) && Rams(p, obs[0], pl)) || RemovedTwice(p, obs[1..], pl')
  {
    if RemovedTwice(p, obs, pl) {
      var i :| 0 <= i < |obs| && Sinks(p, obs[i]) && Rams(p, obs[i], pl);
      if i > 0 {
        assert obs[1..][i - 1] == obs[i];
      }
    }
    if RemovedTwice(p, obs[1..], pl') {
      var i :| 0 <= i < |obs[1..]| && Sinks(p, obs[1..][i]) && Rams(p, obs[1..][i], pl');
      assert obs[i + 1] == obs[1..][i];
    }
  }

  /** One unarmed obstacle of the pass: its own laser update does nothing, so
      the outcome depends only on whether it sinks and whether it rams. */
  lemma PassHead(p: Platform, obs: seq<Actor>, pl: Actor, lives: int)
    requires obs != [] && Unarmed(obs[0])
    ensures var sinks := Sinks(p, obs[0]);
      var rams := Rams(p, obs[0], pl);
      ObstaclePass(p, obs, pl, lives)
      == if sinks && rams then Err(RemoveAbsent)
         else
           match ObstaclePass(p, obs[1..], if rams then pl.(health := pl.health - DAMAGE) else pl,
                              if sinks then lives - 1 else lives)
           case Err(e) => Err(e)
           case Ok(rest) =>
             Ok(rest.(obstacles := (if sinks || rams then [] else [Fall(obs[0], OBSTACLE_VEL)]) + rest.obstacles))
  {
    Sweep.UnarmedSweepIsIdle(p, Fall(obs[0], OBSTACLE_VEL), LASER_VEL, pl);
  }

  /** The obstacle pass over unarmed obstacles: it fails exactly when some
      obstacle both sinks and rams; otherwise every obstacle moves down by
      OBSTACLE_VEL, each sinking one is removed and costs exactly one life,
      each ramming one is removed and costs the player exactly DAMAGE, the rest
      stay in order, and nothing else about the player changes. */
  lemma {:induction false} ObstaclePassSpec(p: Platform, obs: seq<Actor>, pl: Actor, lives: int)
    requires forall o :: o in obs ==> Unarmed(o)
    ensures var r := ObstaclePass(p, obs, pl, lives);
      && (r.Err? <==> RemovedTwice(p, obs, pl))
      && (r.Ok? ==>
          && r.value.obstacles == Remaining(p, obs, pl)
          && r.value.lives == lives - CountSinking(p, obs)
          && r.value.player == pl.(health := pl.health - DAMAGE * CountRamming(p, obs, pl)))
    decreases |obs|
  {
    if obs != [] {
      assert obs[0] in obs;
      PassHead(p, obs, pl, lives);
      var rams := Rams(p, obs[0], pl);
      var pl2 := if rams then pl.(health := pl.health - DAMAGE) else pl;
      var lives1 := if Sinks(p, obs[0]) then lives - 1 else lives;
      assert forall o :: o in obs[1..] ==> o in obs;
      ObstaclePassSpec(p, obs[1..], pl2, lives1);
      CountRammingPose(p, obs[1..], pl2, pl);
      RemainingPose(p, obs[1..], pl2, pl);
      RemovedTwiceCons(p, obs, pl, pl2);
    }
  }

  /** Ramming depends on where the player is, not on its health. */
  lemma {:induction false} CountRammingPose(p: Platform, obs: seq<Actor>, a: Actor, b: Actor)
    requires a.x == b.x && a.y == b.y && a.sprite == b.sprite
    ensures CountRamming(p, obs, a) == CountRamming(p, obs, b)
    decreases |obs|
  {
    if obs != [] {
      CountRammingPose(p, obs[1..], a, b);
    }
  }

  lemma {:induction false} RemainingPose(p: Platform, obs: seq<Actor>, a: Actor, b: Actor)
    requires a.x == b.x && a.y == b.y && a.sprite == b.sprite
    ensures Remaining(p, obs, a) == Remaining(p, obs, b)
    decreases |obs|
  {
    if obs != [] {
      RemainingPose(p, obs[1..], a, b);
    }
  }

  /** The gameplay half of a tick: movement, firing, the obstacle pass, then
      the player's lasers (moving up, hence the negated velocity). */
  function Play(p: Platform, s: Session, keys: Keys): Result<Session>
  {
    var pl1 := Steer(p, s.player, keys);
    var pl2 := if keys.space then Shoot(pl1) else pl1;
    match ObstaclePass(p, s.obstacles, pl2, s.lives)
    case Err(e) => Err(e)
    case Ok(pass) =>
      var (pl3, obs3) := PlayerFire.PlayerMoveLasers(p, pass.player, -LASER_VEL, pass.obstacles);
      Ok(s.(player := pl3, obstacles := obs3, lives := pass.lives))
  }

  /** One iteration of `main`'s loop. While lost and within the loss timer the
      tick ends right after the bookkeeping; on the tick the timer runs out,
      `run` is cleared but the rest of the loop body still runs. */
  function Step(p: Platform, s: Session, input: TickInput): Result<Session>
    requires DrawsInRange(input.wave)
  {
    var s1 := SpawnIfCleared(s, input.wave);
    var s2 := CheckLoss(s1);
    if s2.lost && s2.lostCount <= LOSS_TICKS then Ok(s2)
    else Play(p, if s2.lost then s2.(run := false) else s2, input.keys)
  }

  ghost predicate InputsInRange(ins: seq<TickInput>)
  {
    forall k :: 0 <= k < |ins| ==> DrawsInRange(ins[k].wave)
  }

  /** `while run:` over a sequence of tick inputs; stops early once `run` is
      false or a tick raises. */
  function Run(p: Platform, s: Session, ins: seq<TickInput>): Result<Session>
    requires InputsInRange(ins)
    decreases |ins|
  {
    if ins == [] || !s.run then Ok(s)
    else
      match Step(p, s, ins[0])
      case Err(e) => Err(e)
      case Ok(s') => Run(p, s', ins[1..])
  }

  /** What holds of every session `main` can reach. */
  ghost predicate Valid(s: Session)
  {
    && s.level >= 0
    && s.wavelength == START_WAVELENGTH + WAVE_GROWTH * s.level
    && 0 <= s.player.coolDown <= Cooldown.COOLDOWN
    && (forall o :: o in s.obstacles ==> Unarmed(o))
    && s.lostCount >= 0
    && (s.lost <==> s.lostCount > 0)
    && (s.lost ==> s.lives <= 0 || s.player.health <= 0)
    && (s.run ==> s.lostCount <= LOSS_TICKS)
    && (!s.run ==> s.lost && s.lostCount > LOSS_TICKS)
  }

  lemma StartValid()
    ensures Valid(Start())
  {
  }

  /** The gameplay half only lowers lives and health, keeps the player's
      counter in range, and leaves every obstacle unarmed. The counter sees
      exactly one `shoot` (when fire is held) followed by exactly one cooldown
      tick, which is what `FireTick` and `HoldFire` iterate. */
  lemma PlaySpec(p: Platform, s: Session, keys: Keys)
    requires forall o :: o in s.obstacles ==> Unarmed(o)
    requires 0 <= s.player.coolDown <= Cooldown.COOLDOWN
    ensures var r := Play(p, s, keys);
      r.Ok? ==>
        && r.value.lives <= s.lives
        && r.value.player.health <= s.player.health
        && 0 <= r.value.player.coolDown <= Cooldown.COOLDOWN
        && (forall o :: o in r.value.obstacles ==> Unarmed(o))
        && r.value.(player := s.player, obstacles := s.obstacles, lives := s.lives) == s
    ensures var r := Play(p, s, keys);
      r.Ok? ==> r.value.player.coolDown == (if keys.space then FireTick(s.player) else CoolDown(s.player)).coolDown
  {
    var pl1 := Steer(p, s.player, keys);
    SteerSpec(p, s.player, keys);
    var pl2 := if keys.space then Shoot(pl1) else pl1;
    ObstaclePassSpec(p, s.obstacles, pl2, s.lives);
    var r := ObstaclePass(p, s.obstacles, pl2, s.lives);
    if r.Ok? {
      var pass := r.value;
      RemainingUnarmed(p, s.obstacles, pl2);
      PlayerFire.PlayerSweepBounds(p, pass.player.lasers, -LASER_VEL, pass.obstacles);
      var obs3 := PlayerFire.PlayerMoveLasers(p, pass.player, -LASER_VEL, pass.obstacles).1;
      forall o | o in obs3
        ensures Unarmed(o)
      {
        SubseqMembers(obs3, pass.obstacles, o);
      }
    }
  }

  /** The gameplay half of a tick is the composition of its parts: steering,
      then `shoot` when fire is held, then the obstacle pass over unarmed
      obstacles, then the player's lasers flying up through what is left. It
      raises exactly when some obstacle both sinks and rams; otherwise each
      sinking obstacle costs one life, each ramming one costs DAMAGE, the player
      stands where steering put it, and lasers and obstacles are what
      `Player.move_lasers` leaves of the pass's survivors. */
  lemma PlayComposes(p: Platform, s: Session, keys: Keys)
    requires forall o :: o in s.obstacles ==> Unarmed(o)
    ensures var pl1 := Steer(p, s.player, keys);
      var pl2 := if keys.space then Shoot(pl1) else pl1;
      var r := Play(p, s, keys);
      && (r.Err? <==> RemovedTwice(p, s.obstacles, pl2))
      && (r.Ok? ==>
          var v := PlayerFire.PlayerSweep(p, pl2.lasers, -LASER_VEL, Remaining(p, s.obstacles, pl2));
          && r.value.lives == s.lives - CountSinking(p, s.obstacles)
          && r.value.player.x == pl1.x && r.value.player.y == pl1.y
          && r.value.player.health == s.player.health - DAMAGE * CountRamming(p, s.obstacles, pl2)
          && r.value.player.lasers == v.lasers
          && r.value.obstacles == v.obstacles)
  {
    var pl1 := Steer(p, s.player, keys);
    var pl2 := if keys.space then Shoot(pl1) else pl1;
    SteerSpec(p, s.player, keys);
    ObstaclePassSpec(p, s.obstacles, pl2, s.lives);
  }

  lemma {:induction false} RemainingUnarmed(p: Platform, obs: seq<Actor>, pl: Actor)
    requires forall o :: o in obs ==> Unarmed(o)
    ensures forall o :: o in Remaining(p, obs, pl) ==> Unarmed(o)
    decreases |obs|
  {
    if obs != [] {
      assert forall o :: o in obs[1..] ==> o in obs;
      assert obs[0] in obs;
      RemainingUnarmed(p, obs[1..], pl);
    }
  }

  /** Every tick of a running session keeps the invariant, never raises
      lives or health, never clears the loss flag, and raises the level by at
      most one. */
  lemma StepSpec(p: Platform, s: Session, input: TickInput)
    requires Valid(s) && s.run && DrawsInRange(input.wave)
    ensures var r := Step(p, s, input);
      r.Ok? ==>
        && Valid(r.value)
        && r.value.lives <= s.lives
        && r.value.player.health <= s.player.health
        && (s.lost ==> r.value.lost)
        && s.level <= r.value.level <= s.level + 1
        && s.lostCount <= r.value.lostCount
  {
    var s1 := SpawnIfCleared(s, input.wave);
    var s2 := CheckLoss(s1);
    assert s1.lives == s.lives && s1.player == s.player && s1.lost == s.lost && s1.lostCount == s.lostCount;
    assert s2.lost <==> s2.lostCount > 0;
    if !(s2.lost && s2.lostCount <= LOSS_TICKS) {
      var s3 := if s2.lost then s2.(run := false) else s2;
      PlaySpec(p, s3, input.keys);
      var r := Play(p, s3, input.keys);
      if r.Ok? {
        assert r.value.lost == s3.lost && r.value.lostCount == s3.lostCount;
      }
    }
  }

  /** The n-th wave: in every valid session the wave spawned on reaching level
      n has START_WAVELENGTH + WAVE_GROWTH * n obstacles, all inside the spawn
      band above the window. */
  lemma WaveSize(s: Session, wave: nat -> Draw)
    requires Valid(s) && |s.obstacles| == 0 && DrawsInRange(wave)
    ensures var r := SpawnIfCleared(s, wave);
      && r.level == s.level + 1
      && |r.obstacles| == START_WAVELENGTH + WAVE_GROWTH * r.level
      && (forall o :: o in r.obstacles ==> 50 <= o.x < WIDTH - 100 && -1500 <= o.y < -100)
  {
  }

  /** A whole run keeps the invariant. */
  lemma {:induction false} RunValid(p: Platform, s: Session, ins: seq<TickInput>)
    requires Valid(s) && InputsInRange(ins)
    ensures Run(p, s, ins).Ok? ==> Valid(Run(p, s, ins).value)
    decreases |ins|
  {
    if ins != [] && s.run {
      StepSpec(p, s, ins[0]);
      var r := Step(p, s, ins[0]);
      if r.Ok? {
        assert InputsInRange(ins[1..]) by {
          forall k | 0 <= k < |ins[1..]|
            ensures DrawsInRange(ins[1..][k].wave)
          {
            assert ins[1..][k] == ins[k + 1];
          }
        }
        RunValid(p, r.value, ins[1..]);
      }
    }
  }

  /** While lost and inside the loss timer, a tick freezes the game: no
      movement, firing, obstacle pass or laser update runs; the player and the
      lives stay as they are, the timer moves, and the only other change is
      the wave spawned when the obstacle list is empty. */
  lemma LostTickFreezes(p: Platform, s: Session, input: TickInput)
    requires Valid(s) && s.run && s.lost && s.lostCount < LOSS_TICKS && DrawsInRange(input.wave)
    ensures Step(p, s, input) == Ok(SpawnIfCleared(s, input.wave).(lostCount := s.lostCount + 1))
    ensures var r := Step(p, s, input).value;
      r.run && r.lost && r.lostCount == s.lostCount + 1 && r.player == s.player && r.lives == s.lives
  {
  }

  /** From the tick the game is lost, it keeps running (frozen) for exactly
      LOSS_TICKS ticks: after `n <= LOSS_TICKS` ticks the loss timer reads n
      and the session still runs. */
  lemma {:induction false} LossTimerRuns(p: Platform, s: Session, ins: seq<TickInput>)
    requires Valid(s) && s.run && (s.lives <= 0 || s.player.health <= 0)
    requires s.lostCount + |ins| <= LOSS_TICKS && InputsInRange(ins)
    ensures Run(p, s, ins).Ok?
    ensures var r := Run(p, s, ins).value;
      && r.run && (r.lost || ins == []) && r.lostCount == s.lostCount + |ins|
      && r.player == s.player && r.lives == s.lives
    decreases |ins|
  {
    if ins != [] {
      var s1 := SpawnIfCleared(s, ins[0].wave);
      var r := Step(p, s, ins[0]);
      assert r == Ok(CheckLoss(s1));
      assert InputsInRange(ins[1..]) by {
        forall k | 0 <= k < |ins[1..]|
          ensures DrawsInRange(ins[1..][k].wave)
        {
          assert ins[1..][k] == ins[k + 1];
        }
      }
      StepSpec(p, s, ins[0]);
      LossTimerRuns(p, r.value, ins[1..]);
    }
  }

  /** ... and the tick after that, the LOSS_TICKS + 1-th since the loss, ends
      the session: `run` becomes false (unless that last tick raises). */
  lemma LossTimerExpires(p: Platform, s: Session, input: TickInput)
    requires Valid(s) && s.run && s.lost && s.lostCount == LOSS_TICKS && DrawsInRange(input.wave)
    ensures var r := Step(p, s, input);
      r.Ok? ==> !r.value.run && r.value.lost && r.value.lostCount == LOSS_TICKS + 1
  {
    var s2 := CheckLoss(SpawnIfCleared(s, input.wave));
    assert s2.lostCount == LOSS_TICKS + 1;
    PlaySpec(p, s2.(run := false), input.keys);
  }
}

=== FILE: lasers.dfy ===
/** A laser: a point sprite that only moves vertically. */
module Lasers {
  import opened Screen

  datatype Laser = Laser(x: int, y: int)

  /** `Laser.move`: vertical translation; the sign of `velocity` is the direction. */
  function Move(l: Laser, velocity: int): Laser
  {
    l.(y := l.y + velocity)
  }

  /** `Laser.off_screen`: outside the closed vertical range [0, height]. */
  predicate OffScreen(l: Laser, height: int)
  {
    !(l.y <= height && l.y >= 0)
  }

  /** `Laser.collision(item)`, which is `collide(item, laser)`: the laser's mask
      is placed relative to the item. */
  predicate Hits(p: Platform, l: Laser, sprite: Sprite, x: int, y: int)
  {
    Collide(p, sprite, x, y, RedLaser, l.x, l.y)
  }

  /** The item is the first body of the test: the laser's mask is placed at
      the laser's position minus the item's. With symmetric masks the order of
      the two bodies does not matter. */
  lemma HitsOffset(p: Platform, l: Laser, sprite: Sprite, x: int, y: int)
    ensures Hits(p, l, sprite, x, y) <==> p.overlap(sprite, RedLaser, l.x - x, l.y - y)
    ensures MasksSymmetric(p) ==> (Hits(p, l, sprite, x, y) <==> Collide(p, RedLaser, l.x, l.y, sprite, x, y))
  {
    if MasksSymmetric(p) {
      CollideSymmetric(p, sprite, x, y, RedLaser, l.x, l.y);
    }
  }

  /** A laser moved `n` times by the same velocity. */
  function Fly(l: Laser, velocity: int, n: nat): Laser
    decreases n
  {
    if n == 0 then l else Fly(Move(l, velocity), velocity, n - 1)
  }

  /** Moving only ever changes `y`, by exactly the velocity per move. */
  lemma {:induction false} FlyDisplacement(l: Laser, velocity: int, n: nat)
    ensures Fly(l, velocity, n) == Laser(l.x, l.y + n * velocity)
    decreases n
  {
    if n > 0 {
      FlyDisplacement(Move(l, velocity), velocity, n - 1);
      assert l.y + velocity + (n - 1) * velocity == l.y + n * velocity;
    }
  }

  /** The boundary is inclusive: a laser exactly on row 0 or row `height` is
      still on screen, one row beyond either is not. */
  lemma OffScreenBoundary(l: Laser, height: int)
    requires height >= 0
    ensures OffScreen(l, height) <==> l.y < 0 || l.y > height
    ensures !OffScreen(Laser(l.x, 0), height) && !OffScreen(Laser(l.x, height), height)
    ensures OffScreen(Laser(l.x, -1), height) && OffScreen(Laser(l.x, height + 1), height)
  {
  }

  /** A laser rising at `speed` pixels per move from an on-screen row leaves the
      screen on move `y / speed + 1`, and not before. */
  lemma RisingLaserLeaves(l: Laser, speed: int, height: int, k: nat)
    requires speed > 0 && 0 <= l.y <= height
    ensures OffScreen(Fly(l, -speed, l.y / speed + 1), height)
    ensures k <= l.y / speed ==> !OffScreen(Fly(l, -speed, k), height)
  {
    var q := l.y / speed;
    FlyDisplacement(l, -speed, q + 1);
    FlyDisplacement(l, -speed, k);
    assert q * speed <= l.y < (q + 1) * speed;
    if k <= q {
      MulMonotone(k, q, speed);
    }
  }

  /** A laser falling at `speed` pixels per move from an on-screen row leaves
      the screen on move `(height - y) / speed + 1`, and not before. */
  lemma FallingLaserLeaves(l: Laser, speed: int, height: int, k: nat)
    requires speed > 0 && 0 <= l.y <= height
    ensures OffScreen(Fly(l, speed, (height - l.y) / speed + 1), height)
    ensures k <= (height - l.y) / speed ==> !OffScreen(Fly(l, speed, k), height)
  {
    var d := height - l.y;
    var q := d / speed;
    FlyDisplacement(l, speed, q + 1);
    FlyDisplacement(l, speed, k);
    assert q * speed <= d < (q + 1) * speed;
    if k <= q {
      MulMonotone(k, q, speed);
    }
  }

  lemma MulMonotone(a: nat, b: nat, c: int)
    requires a <= b && c > 0
    ensures a * c <= b * c
  {
  }
}

=== FILE: player_fire.dfy ===
/** `Player.move_lasers`: the player's lasers against the whole obstacle list.
    A laser that touches an obstacle destroys it outright and is itself
    removed. Both loops delete from the list they are walking, so, as in
    `Object.move_lasers`, the element right after a deleted one is stepped
    over: the laser after a removed laser is neither moved nor checked for a hit, and the
    obstacle after a destroyed one is not checked against that laser. */
module PlayerFire {
  import opened Screen
  import opened Lasers
  import opened Actors
  import opened Seqs
  import Sweep
  import Cooldown

  /** `laser.collision(item)` for an obstacle. */
  predicate Touches(p: Platform, l: Laser, o: Actor)
  {
    Hits(p, l, o.sprite, o.x, o.y)
  }

  /** The obstacles a laser does not touch, in order. */
  function Untouched(p: Platform, l: Laser, obs: seq<Actor>): seq<Actor>
    decreases |obs|
  {
    if obs == [] then []
    else (if Touches(p, l, obs[0]) then [] else [obs[0]]) + Untouched(p, l, obs[1..])
  }

  datatype Blast = Blast(obstacles: seq<Actor>, hit: bool)

  /** The inner `for item in items` loop for one laser: every obstacle it visits
      and touches is deleted; the one after a deleted obstacle is not visited.
      `hit` records whether the laser is to be removed. */
  function Strike(p: Platform, l: Laser, obs: seq<Actor>): (r: Blast)
    ensures r.hit <==> exists i :: 0 <= i < |obs| && Touches(p, l, obs[i])
    ensures !r.hit ==> r.obstacles == obs
    ensures r.hit ==> |r.obstacles| < |obs|
    decreases |obs|
  {
    if obs == [] then Blast([], false)
    else if Touches(p, l, obs[0]) then
      if |obs| == 1 then Blast([], true)
      else
        var r := Strike(p, l, obs[2..]);
        Blast([obs[1]] + r.obstacles, true)
    else
      var r := Strike(p, l, obs[1..]);
      assert forall i :: 0 < i < |obs| ==> obs[i] == obs[1..][i - 1];
      Blast([obs[0]] + r.obstacles, r.hit)
  }

  /** A laser only deletes obstacles, never alters or reorders them, and every
      obstacle it does not touch survives. */
  lemma {:induction false} StrikeBounds(p: Platform, l: Laser, obs: seq<Actor>)
    ensures Subseq(Strike(p, l, obs).obstacles, obs)
    ensures Subseq(Untouched(p, l, obs), Strike(p, l, obs).obstacles)
    decreases |obs|
  {
    if obs != [] {
      var r := Strike(p, l, obs);
      if Touches(p, l, obs[0]) {
        if |obs| > 1 {
          var rest := Strike(p, l, obs[2..]);
          StrikeBounds(p, l, obs[2..]);
          assert obs[1..][1..] == obs[2..];
          SubseqCons(obs[1], rest.obstacles, obs[2..]);
          SubseqSkip(obs[0], [obs[1]] + rest.obstacles, obs[1..]);
          assert [obs[0]] + obs[1..] == obs;
          var u := Untouched(p, l, obs[2..]);
          assert Untouched(p, l, obs) == Untouched(p, l, obs[1..]);
          if Touches(p, l, obs[1]) {
            assert Untouched(p, l, obs[1..]) == u;
            SubseqSkip(obs[1], u, rest.obstacles);
          } else {
            assert Untouched(p, l, obs[1..]) == [obs[1]] + u;
            SubseqCons(obs[1], u, rest.obstacles);
          }
        }
      } else {
        var rest := Strike(p, l, obs[1..]);
        StrikeBounds(p, l, obs[1..]);
        SubseqCons(obs[0], rest.obstacles, obs[1..]);
        assert [obs[0]] + obs[1..] == obs;
        SubseqCons(obs[0], Untouched(p, l, obs[1..]), rest.obstacles);
      }
    }
  }

  /** What the inner loop does to one obstacle. */
  datatype Mark = Unvisited | Spared | Destroyed

  /** The index rule of the inner `for item in items` loop, which deletes the
      current obstacle: obstacle 0 is visited; an obstacle is stepped over
      exactly when the one before it was destroyed; a visited obstacle is
      destroyed exactly when the laser touches it. */
  ghost predicate StrikeTrace(p: Platform, l: Laser, obs: seq<Actor>, g: seq<Mark>)
  {
    && |g| == |obs|
    && (|g| > 0 ==> !g[0].Unvisited?)
    && (forall i :: 0 < i < |g| ==> (g[i].Unvisited? <==> g[i - 1].Destroyed?))
    && (forall i :: 0 <= i < |g| && !g[i].Unvisited? ==> (g[i].Destroyed? <==> Touches(p, l, obs[i])))
  }

  /** The obstacles still standing: every one not destroyed, in order. */
  function Standing(obs: seq<Actor>, g: seq<Mark>): seq<Actor>
    requires |g| == |obs|
    decreases |obs|
  {
    if obs == [] then []
    else (if g[0].Destroyed? then [] else [obs[0]]) + Standing(obs[1..], g[1..])
  }

  /** The marks the inner loop hands out. */
  function Marks(p: Platform, l: Laser, obs: seq<Actor>): seq<Mark>
    decreases |obs|
  {
    if obs == [] then []
    else if !Touches(p, l, obs[0]) then [Spared] + Marks(p, l, obs[1..])
    else if |obs| == 1 then [Destroyed]
    else [Destroyed, Unvisited] + Marks(p, l, obs[2..])
  }

  /** A trace of the inner loop, read from position `k` on, is a trace of the
      rest of the list, provided position `k` is visited. */
  lemma StrikeTraceDrop(p: Platform, l: Laser, obs: seq<Actor>, g: seq<Mark>, k: nat)
    requires StrikeTrace(p, l, obs, g) && k <= |obs|
    requires k < |obs| ==> !g[k].Unvisited?
    ensures StrikeTrace(p, l, obs[k..], g[k..])
  {
  }

  /** The inner loop's marks obey the index rule. */
  lemma {:induction false} MarksFollowIteration(p: Platform, l: Laser, obs: seq<Actor>)
    ensures StrikeTrace(p, l, obs, Marks(p, l, obs))
    decreases |obs|
  {
    if obs != [] {
      var g := Marks(p, l, obs);
      var k := if !Touches(p, l, obs[0]) || |obs| == 1 then 1 else 2;
      var t := Marks(p, l, obs[k..]);
      MarksFollowIteration(p, l, obs[k..]);
      assert g[k..] == t;
      forall i | k <= i < |g|
        ensures i > 0 ==> (g[i].Unvisited? <==> g[i - 1].Destroyed?)
        ensures !g[i].Unvisited? ==> (g[i].Destroyed? <==> Touches(p, l, obs[i]))
      {
        assert g[i] == t[i - k] && obs[i] == obs[k..][i - k];
        if i > k {
          assert g[i - 1] == t[i - 1 - k];
        }
      }
    }
  }

  /** `Strike` in full: for any trace the index rule allows, the obstacles
      left are exactly those not destroyed, in order, and the laser is removed
      exactly when it destroyed one. */
  lemma {:induction false} StrikeFollowsIteration(p: Platform, l: Laser, obs: seq<Actor>, g: seq<Mark>)
    requires StrikeTrace(p, l, obs, g)
    ensures Strike(p, l, obs).obstacles == Standing(obs, g)
    ensures Strike(p, l, obs).hit <==> exists i :: 0 <= i < |g| && g[i].Destroyed?
    decreases |obs|
  {
    if obs != [] {
      if Touches(p, l, obs[0]) {
        assert g[0].Destroyed?;
        if |obs| > 1 {
          assert g[1].Unvisited?;
          if |obs| > 2 {
            assert !g[2].Unvisited?;
          }
          StrikeTraceDrop(p, l, obs, g, 2);
          StrikeFollowsIteration(p, l, obs[2..], g[2..]);
          assert obs[1..][1..] == obs[2..] && g[1..][1..] == g[2..];
          assert Standing(obs, g) == [obs[1]] + Standing(obs[2..], g[2..]);
        }
      } else {
        assert !g[0].Destroyed?;
        if |obs| > 1 {
          assert !g[1].Unvisited?;
        }
        StrikeTraceDrop(p, l, obs, g, 1);
        StrikeFollowsIteration(p, l, obs[1..], g[1..]);
        if exists i :: 0 <= i < |g| && g[i].Destroyed? {
          var i :| 0 <= i < |g| && g[i].Destroyed?;
          assert g[1..][i - 1] == g[i];
        }
        if exists i :: 0 <= i < |g[1..]| && g[1..][i].Destroyed? {
          var i :| 0 <= i < |g[1..]| && g[1..][i].Destroyed?;
          assert g[i + 1] == g[1..][i];
        }
      }
    }
  }

  /** Some laser of the list, once moved, touches the obstacle. */
  predicate Threatened(p: Platform, ls: seq<Laser>, velocity: int, o: Actor)
  {
    exists i :: 0 <= i < |ls| && Touches(p, Move(ls[i], velocity), o)
  }

  datatype Volley = Volley(lasers: seq<Laser>, obstacles: seq<Actor>)

  /** The outer loop of `Player.move_lasers`, as recursion on the laser list.
      A laser that leaves the screen, or that destroys at least one obstacle,
      is removed and the next laser is stepped over. */
  function PlayerSweep(p: Platform, ls: seq<Laser>, velocity: int, obs: seq<Actor>): (r: Volley)
    ensures |r.lasers| <= |ls| && |r.obstacles| <= |obs|
    ensures |r.lasers| == |ls| ==> r.obstacles == obs
    decreases |ls|
  {
    if ls == [] then Volley([], obs)
    else
      var m := Move(ls[0], velocity);
      if OffScreen(m, HEIGHT) then
        if |ls| == 1 then Volley([], obs)
        else
          var r := PlayerSweep(p, ls[2..], velocity, obs);
          Volley([ls[1]] + r.lasers, r.obstacles)
      else
        var b := Strike(p, m, obs);
        if b.hit then
          if |ls| == 1 then Volley([], b.obstacles)
          else
            var r := PlayerSweep(p, ls[2..], velocity, b.obstacles);
            Volley([ls[1]] + r.lasers, r.obstacles)
        else
          var r := PlayerSweep(p, ls[1..], velocity, obs);
          Volley([m] + r.lasers, r.obstacles)
  }

  /** The player's lasers only delete obstacles, in order, and never one that
      no laser of the volley touches after moving. */
  lemma {:induction false} PlayerSweepBounds(p: Platform, ls: seq<Laser>, velocity: int, obs: seq<Actor>)
    ensures Subseq(PlayerSweep(p, ls, velocity, obs).obstacles, obs)
    ensures forall o :: o in obs && !Threatened(p, ls, velocity, o) ==> o in PlayerSweep(p, ls, velocity, obs).obstacles
    decreases |ls|
  {
    var r := PlayerSweep(p, ls, velocity, obs);
    if ls == [] {
      SubseqRefl(obs);
    } else {
      var m := Move(ls[0], velocity);
      var b := Strike(p, m, obs);
      var next := if !OffScreen(m, HEIGHT) && b.hit then b.obstacles else obs;
      var tail := if OffScreen(m, HEIGHT) || b.hit then (if |ls| == 1 then [] else ls[2..]) else ls[1..];
      StrikeBounds(p, m, obs);
      if !OffScreen(m, HEIGHT) && !b.hit {
        assert tail == ls[1..];
      }
      PlayerSweepBounds(p, tail, velocity, next);
      assert r.obstacles == PlayerSweep(p, tail, velocity, next).obstacles;
      if next == b.obstacles {
        SubseqTrans(r.obstacles, next, obs);
      }
      forall o | o in obs && !Threatened(p, ls, velocity, o)
        ensures o in r.obstacles
      {
        assert !Touches(p, m, o) by {
          assert Move(ls[0], velocity) == m;
        }
        assert o in next by {
          if next == b.obstacles {
            UntouchedKeeps(p, m, obs, o);
            SubseqMembers(Untouched(p, m, obs), next, o);
          }
        }
        assert !Threatened(p, tail, velocity, o) by {
          forall i | 0 <= i < |tail|
            ensures !Touches(p, Move(tail[i], velocity), o)
          {
            if tail == ls[1..] {
              assert tail[i] == ls[i + 1];
            } else {
              assert tail[i] == ls[i + 2];
            }
          }
        }
      }
    }
  }

  lemma {:induction false} UntouchedKeeps(p: Platform, l: Laser, obs: seq<Actor>, o: Actor)
    requires o in obs && !Touches(p, l, o)
    ensures o in Untouched(p, l, obs)
    decreases |obs|
  {
    if obs[0] != o {
      UntouchedKeeps(p, l, obs[1..], o);
    }
  }

  /** The fate of a laser the outer loop visits, against the obstacles
      standing at that moment: it moves, then leaves the screen, or else
      destroys what it touches, or else stays. */
  function VolleyFate(p: Platform, l: Laser, velocity: int, obs: seq<Actor>): Sweep.Fate
  {
    var m := Move(l, velocity);
    if OffScreen(m, HEIGHT) then Sweep.Exited
    else if Strike(p, m, obs).hit then Sweep.Struck
    else Sweep.Kept
  }

  /** The index rule of the outer loop. `f[i]` is what happens to laser `i`
      and `w[i]` is the obstacle list it meets: the first laser is visited; a
      laser is skipped exactly when the one before it was visited and removed;
      a visited laser's fate depends on where it lands and on `w[i]`; only a
      striking laser changes the list, by its `Strike`. */
  ghost predicate VolleyTrace(p: Platform, ls: seq<Laser>, velocity: int, f: seq<Sweep.Fate>, w: seq<seq<Actor>>)
  {
    && |f| == |ls| && |w| == |ls| + 1
    && (|f| > 0 ==> !f[0].Skipped?)
    && (forall i :: 0 < i < |f| ==> (f[i].Skipped? <==> Sweep.Removed(f[i - 1])))
    && (forall i :: 0 <= i < |f| && !f[i].Skipped? ==> f[i] == VolleyFate(p, ls[i], velocity, w[i]))
    && (forall i :: 0 <= i < |f| ==>
          w[i + 1] == if f[i].Struck? then Strike(p, Move(ls[i], velocity), w[i]).obstacles else w[i])
  }

  datatype Course = Course(fates: seq<Sweep.Fate>, lists: seq<seq<Actor>>)

  /** The fates and obstacle lists the outer loop goes through. */
  function Volleys(p: Platform, ls: seq<Laser>, velocity: int, obs: seq<Actor>): Course
    decreases |ls|
  {
    if ls == [] then Course([], [obs])
    else
      var h := VolleyFate(p, ls[0], velocity, obs);
      var next := if h.Struck? then Strike(p, Move(ls[0], velocity), obs).obstacles else obs;
      if !Sweep.Removed(h) then
        var c := Volleys(p, ls[1..], velocity, obs);
        Course([h] + c.fates, [obs] + c.lists)
      else if |ls| == 1 then Course([h], [obs, next])
      else
        var c := Volleys(p, ls[2..], velocity, next);
        Course([h, Sweep.Skipped] + c.fates, [obs, next] + c.lists)
  }

  /** A trace of the outer loop, read from a visited position `k` on, is a
      trace of the rest of the lasers. */
  lemma VolleyTraceDrop(p: Platform, ls: seq<Laser>, velocity: int, f: seq<Sweep.Fate>, w: seq<seq<Actor>>, k: nat)
    requires VolleyTrace(p, ls, velocity, f, w) && k <= |ls|
    requires k < |ls| ==> !f[k].Skipped?
    ensures VolleyTrace(p, ls[k..], velocity, f[k..], w[k..])
  {
  }

  /** The rules of a trace of the rest of the lasers, from `k` on, hold at
      the matching positions of the whole trace. */
  lemma VolleyTraceLift(p: Platform, ls: seq<Laser>, velocity: int, f: seq<Sweep.Fate>, w: seq<seq<Actor>>, k: nat, i: nat)
    requires |f| == |ls| && |w| == |ls| + 1 && k <= i < |ls|
    requires VolleyTrace(p, ls[k..], velocity, f[k..], w[k..])
    ensures i > k ==> (f[i].Skipped? <==> Sweep.Removed(f[i - 1]))
    ensures !f[i].Skipped? ==> f[i] == VolleyFate(p, ls[i], velocity, w[i])
    ensures w[i + 1] == if f[i].Struck? then Strike(p, Move(ls[i], velocity), w[i]).obstacles else w[i]
  {
  }

  /** The outer loop's course obeys the index rule, from the list it starts with. */
  lemma {:induction false} VolleysFollowIteration(p: Platform, ls: seq<Laser>, velocity: int, obs: seq<Actor>)
    ensures var c := Volleys(p, ls, velocity, obs);
      VolleyTrace(p, ls, velocity, c.fates, c.lists) && c.lists[0] == obs
    decreases |ls|
  {
    if ls != [] {
      var c := Volleys(p, ls, velocity, obs);
      var h := VolleyFate(p, ls[0], velocity, obs);
      var next := if h.Struck? then Strike(p, Move(ls[0], velocity), obs).obstacles else obs;
      if !Sweep.Removed(h) || |ls| > 1 {
        var k := if !Sweep.Removed(h) then 1 else 2;
        var from := if !Sweep.Removed(h) then obs else next;
        var t := Volleys(p, ls[k..], velocity, from);
        VolleysFollowIteration(p, ls[k..], velocity, from);
        assert c.fates[k..] == t.fates && c.lists[k..] == t.lists;
        forall i | k <= i < |ls|
          ensures i > k ==> (c.fates[i].Skipped? <==> Sweep.Removed(c.fates[i - 1]))
          ensures !c.fates[i].Skipped? ==> c.fates[i] == VolleyFate(p, ls[i], velocity, c.lists[i])
          ensures c.lists[i + 1] == if c.fates[i].Struck? then Strike(p, Move(ls[i], velocity), c.lists[i]).obstacles else c.lists[i]
        {
          VolleyTraceLift(p, ls, velocity, c.fates, c.lists, k, i);
        }
        if k < |ls| {
          assert c.fates[k] == t.fates[0];
        }
      }
    }
  }

  /** `Player.move_lasers`' loops in full: for any trace the index rule
      allows from the list `w[0]`, the lasers left are the skipped ones unmoved
      and the kept ones moved, in order, with every laser that left the screen
      or destroyed an obstacle gone; the obstacles left are the list after the
      last laser. */
  lemma {:induction false} PlayerSweepFollowsIteration(p: Platform, ls: seq<Laser>, velocity: int, f: seq<Sweep.Fate>, w: seq<seq<Actor>>)
    requires VolleyTrace(p, ls, velocity, f, w)
    ensures PlayerSweep(p, ls, velocity, w[0]) == Volley(Sweep.Survivors(ls, f, velocity), w[|ls|])
    decreases |ls|
  {
    if ls != [] {
      var m := Move(ls[0], velocity);
      assert f[0] == VolleyFate(p, ls[0], velocity, w[0]);
      if !Sweep.Removed(f[0]) {
        if |ls| > 1 {
          assert !f[1].Skipped?;
        }
        VolleyTraceDrop(p, ls, velocity, f, w, 1);
        PlayerSweepFollowsIteration(p, ls[1..], velocity, f[1..], w[1..]);
      } else if |ls| > 1 {
        assert f[1].Skipped? && w[2] == w[1];
        if |ls| > 2 {
          assert !f[2].Skipped?;
        }
        VolleyTraceDrop(p, ls, velocity, f, w, 2);
        PlayerSweepFollowsIteration(p, ls[2..], velocity, f[2..], w[2..]);
        assert ls[1..][1..] == ls[2..] && f[1..][1..] == f[2..];
        assert Sweep.Survivors(ls, f, velocity) == [ls[1]] + Sweep.Survivors(ls[2..], f[2..], velocity);
      }
    }
  }

  /** `Player.move_lasers(velocity, items)`: ticks the cooldown and runs the
      volley; returns the player and the obstacle list that remains. */
  function PlayerMoveLasers(p: Platform, pl: Actor, velocity: int, obs: seq<Actor>): (Actor, seq<Actor>)
  {
    var r := PlayerSweep(p, pl.lasers, velocity, obs);
    (CoolDown(pl).(lasers := r.lasers), r.obstacles)
  }

  /** `Player.move_lasers` in full: the counter ticks once, the player keeps
      the lasers the index rule lets survive, nothing else about the player
      changes, and the obstacle list is the one left after the last laser. */
  lemma PlayerMoveLasersFollowsIteration(p: Platform, pl: Actor, velocity: int, f: seq<Sweep.Fate>, w: seq<seq<Actor>>)
    requires VolleyTrace(p, pl.lasers, velocity, f, w)
    ensures PlayerMoveLasers(p, pl, velocity, w[0])
      == (pl.(coolDown := Cooldown.Tick(pl.coolDown), lasers := Sweep.Survivors(pl.lasers, f, velocity)), w[|pl.lasers|])
  {
    PlayerSweepFollowsIteration(p, pl.lasers, velocity, f, w);
  }

  /** With no obstacle in the way the player's loop is `Object.move_lasers`
      against a target none of its lasers can hit: both step over the laser
      after one that leaves the screen, and move the rest. */
  lemma {:induction false} EmptySkyMatchesSweep(p: Platform, ls: seq<Laser>, velocity: int, t: Actor)
    requires forall i :: 0 <= i < |ls| ==> !Hits(p, Move(ls[i], velocity), t.sprite, t.x, t.y)
    ensures PlayerSweep(p, ls, velocity, []).lasers == Sweep.SweepLasers(p, ls, velocity, t).lasers
    ensures PlayerSweep(p, ls, velocity, []).obstacles == []
    ensures Sweep.SweepLasers(p, ls, velocity, t).hits == 0
    decreases |ls|
  {
    if ls != [] {
      assert !Hits(p, Move(ls[0], velocity), t.sprite, t.x, t.y);
      if OffScreen(Move(ls[0], velocity), HEIGHT) {
        if |ls| > 1 {
          EmptySkyMatchesSweep(p, ls[2..], velocity, t);
        }
      } else {
        EmptySkyMatchesSweep(p, ls[1..], velocity, t);
      }
    }
  }
}

=== FILE: screen.dfy ===
/** The fixed viewport, the sprite identities and the graphics layer's
    collision and size queries, which the game rules consume but do not define. */
module Screen {

  /** Window size in pixels. */
  const WIDTH: int := 900
  const HEIGHT: int := 700

  /** Ticks per second of the main loop's clock. */
  const FPS: int := 60

  /** The images a body can be drawn with; each has its own pixel mask. */
  datatype Sprite = Spacecraft | Starlink1 | Starlink2 | Asteroid1 | Asteroid2 | RedLaser

  /** The obstacle variants that `random.choice` picks from. */
  datatype Colour = Blue | Purple | Brown | Grey

  /** The obstacle colour table: colour to image. */
  function ColourSprite(c: Colour): Sprite
  {
    match c
    case Blue => Starlink1
    case Purple => Starlink2
    case Brown => Asteroid1
    case Grey => Asteroid2
  }

  /** What the graphics layer supplies: `overlap(a, b, dx, dy)` tells whether the
      mask of `b`, placed at offset (dx, dy) from the mask of `a`, shares a set
      pixel with it; `width` and `height` are the image sizes. */
  datatype Platform = Platform(
    overlap: (Sprite, Sprite, int, int) -> bool,
    width: Sprite -> nat,
    height: Sprite -> nat)

  /** `collide(item1, item2)`: the second body's mask is placed at its position
      relative to the first body. */
  predicate Collide(p: Platform, s1: Sprite, x1: int, y1: int, s2: Sprite, x2: int, y2: int)
  {
    p.overlap(s1, s2, x2 - x1, y2 - y1)
  }

  /** The property pixel masks have: testing b against a at the opposite
      offset gives the same answer as testing a against b. */
  ghost predicate MasksSymmetric(p: Platform)
  {
    forall a, b, dx, dy :: p.overlap(a, b, dx, dy) == p.overlap(b, a, -dx, -dy)
  }

  /** With symmetric masks, collision does not depend on the argument order. */
  lemma CollideSymmetric(p: Platform, s1: Sprite, x1: int, y1: int, s2: Sprite, x2: int, y2: int)
    requires MasksSymmetric(p)
    ensures Collide(p, s1, x1, y1, s2, x2, y2) == Collide(p, s2, x2, y2, s1, x1, y1)
  {
    assert p.overlap(s2, s1, x1 - x2, y1 - y2) == p.overlap(s1, s2, -(x1 - x2), -(y1 - y2));
  }
}

=== FILE: seqs.dfy ===
/** Order-preserving sub-lists: what is left of a list after removing some of
    its elements and leaving the rest untouched. */
module Seqs {

  /** `a` is `b` with some elements deleted, the others kept in order. */
  predicate Subseq<T(==)>(a: seq<T>, b: seq<T>)
    decreases |b|
  {
    a == [] || (b != [] && ((a[0] == b[0] && Subseq(a[1..], b[1..])) || Subseq(a, b[1..])))
  }

  lemma {:induction false} SubseqRefl<T>(a: seq<T>)
    ensures Subseq(a, a)
    decreases |a|
  {
    if a != [] {
      SubseqRefl(a[1..]);
    }
  }

  lemma {:induction false} SubseqTrans<T>(a: seq<T>, b: seq<T>, c: seq<T>)
    requires Subseq(a, b) && Subseq(b, c)
    ensures Subseq(a, c)
    decreases |c|
  {
    if a != [] {
      if Subseq(b, c[1..]) {
        SubseqTrans(a, b, c[1..]);
      } else if a[0] == b[0] && Subseq(a[1..], b[1..]) {
        SubseqTrans(a[1..], b[1..], c[1..]);
      } else {
        SubseqTrans(a, b[1..], c[1..]);
      }
    }
  }

  /** Every element of a sub-list comes from the list. */
  lemma {:induction false} SubseqMembers<T>(a: seq<T>, b: seq<T>, x: T)
    requires Subseq(a, b) && x in a
    ensures x in b
    decreases |b|
  {
    if a[0] == b[0] && Subseq(a[1..], b[1..]) {
      if x != a[0] {
        SubseqMembers(a[1..], b[1..], x);
      }
    } else {
      SubseqMembers(a, b[1..], x);
    }
  }

  lemma {:induction false} SubseqLength<T>(a: seq<T>, b: seq<T>)
    requires Subseq(a, b)
    ensures |a| <= |b|
    decreases |b|
  {
    if a != [] {
      if a[0] == b[0] && Subseq(a[1..], b[1..]) {
        SubseqLength(a[1..], b[1..]);
      } else {
        SubseqLength(a, b[1..]);
      }
    }
  }

  /** Keeping the head on both sides. */
  lemma SubseqCons<T>(x: T, a: seq<T>, b: seq<T>)
    requires Subseq(a, b)
    ensures Subseq([x] + a, [x] + b)
  {
    assert ([x] + a)[1..] == a;
    assert ([x] + b)[1..] == b;
  }

  /** Dropping the head of the longer side. */
  lemma SubseqSkip<T>(x: T, a: seq<T>, b: seq<T>)
    requires Subseq(a, b)
    ensures Subseq(a, [x] + b)
  {
    assert ([x] + b)[1..] == b;
  }
}

=== FILE: sweep.dfy ===
/** `Object.move_lasers`: one tick of an actor's lasers against a single target.

    The loop removes the current laser from the very list it is iterating, so
    Python's list iterator, which walks by index, steps over the laser right
    after every removed one: that laser is neither moved nor checked for a hit this tick.
    The model keeps that behaviour. */
module Sweep {
  import opened Screen
  import opened Lasers
  import opened Actors
  import Cooldown

  /** What one tick of the loop does to one laser. */
  datatype Fate = Skipped | Kept | Exited | Struck

  predicate Removed(f: Fate)
  {
    f.Exited? || f.Struck?
  }

  /** The fate of a laser the loop visits: it moves first, then leaves the
      screen, or else hits the target, or else stays. */
  function FateOf(p: Platform, l: Laser, velocity: int, t: Actor): Fate
  {
    var m := Move(l, velocity);
    if OffScreen(m, HEIGHT) then Exited
    else if Hits(p, m, t.sprite, t.x, t.y) then Struck
    else Kept
  }

  /** The index rule of a Python `for` loop whose body removes the current
      element: the first laser is visited; a laser is skipped exactly when the
      one before it was visited and removed; a visited laser's fate depends only
      on where it lands. */
  ghost predicate IterationTrace(p: Platform, ls: seq<Laser>, velocity: int, t: Actor, f: seq<Fate>)
  {
    && |f| == |ls|
    && (|f| > 0 ==> !f[0].Skipped?)
    && (forall i :: 0 < i < |f| ==> (f[i].Skipped? <==> Removed(f[i - 1])))
    && (forall i :: 0 <= i < |f| && !f[i].Skipped? ==> f[i] == FateOf(p, ls[i], velocity, t))
  }

  /** The list the loop leaves: skipped lasers unmoved, kept lasers moved,
      removed lasers gone, all in the original order. */
  function Survivors(ls: seq<Laser>, f: seq<Fate>, velocity: int): seq<Laser>
    requires |f| == |ls|
    decreases |ls|
  {
    if ls == [] then []
    else
      var head := match f[0]
        case Skipped => [ls[0]]
        case Kept => [Move(ls[0], velocity)]
        case _ => [];
      head + Survivors(ls[1..], f[1..], velocity)
  }

  /** How many lasers struck the target. */
  function CountStruck(f: seq<Fate>): nat
  {
    if f == [] then 0 else (if f[0].Struck? then 1 else 0) + CountStruck(f[1..])
  }

  datatype Outcome = Outcome(lasers: seq<Laser>, hits: nat)

  /** The loop of `Object.move_lasers`, written as recursion on the list: a
      removed laser takes the one after it along unprocessed. */
  function SweepLasers(p: Platform, ls: seq<Laser>, velocity: int, t: Actor): (r: Outcome)
    ensures |r.lasers| + r.hits <= |ls|
    decreases |ls|
  {
    if ls == [] then Outcome([], 0)
    else
      var m := Move(ls[0], velocity);
      if OffScreen(m, HEIGHT) || Hits(p, m, t.sprite, t.x, t.y) then
        var hit := if OffScreen(m, HEIGHT) then 0 else 1;
        if |ls| == 1 then Outcome([], hit)
        else
          var r := SweepLasers(p, ls[2..], velocity, t);
          Outcome([ls[1]] + r.lasers, r.hits + hit)
      else
        var r := SweepLasers(p, ls[1..], velocity, t);
        Outcome([m] + r.lasers, r.hits)
  }

  /** `Object.move_lasers(velocity, item)`: ticks the cooldown, runs the loop,
      and takes DAMAGE from the target for every laser that struck it. */
  function MoveLasers(p: Platform, a: Actor, velocity: int, t: Actor): (Actor, Actor)
  {
    var r := SweepLasers(p, a.lasers, velocity, t);
    (CoolDown(a).(lasers := r.lasers), t.(health := t.health - DAMAGE * r.hits))
  }

  /** The trace the loop follows, one fate per laser. */
  function Trace(p: Platform, ls: seq<Laser>, velocity: int, t: Actor): seq<Fate>
    decreases |ls|
  {
    if ls == [] then []
    else
      var h := FateOf(p, ls[0], velocity, t);
      if !Removed(h) then [h] + Trace(p, ls[1..], velocity, t)
      else if |ls| == 1 then [h]
      else [h, Skipped] + Trace(p, ls[2..], velocity, t)
  }

  /** The trace obeys the iterator's index rule. */
  lemma {:induction false} TraceFollowsIteration(p: Platform, ls: seq<Laser>, velocity: int, t: Actor)
    ensures IterationTrace(p, ls, velocity, t, Trace(p, ls, velocity, t))
    decreases |ls|
  {
    if ls != [] {
      var f := Trace(p, ls, velocity, t);
      var h := FateOf(p, ls[0], velocity, t);
      if !Removed(h) {
        var g := Trace(p, ls[1..], velocity, t);
        TraceFollowsIteration(p, ls[1..], velocity, t);
        assert f == [h] + g;
        forall i | 0 <= i < |f|
          ensures i > 0 ==> (f[i].Skipped? <==> Removed(f[i - 1]))
          ensures !f[i].Skipped? ==> f[i] == FateOf(p, ls[i], velocity, t)
        {
          if i > 0 {
            assert f[i] == g[i - 1] && ls[i] == ls[1..][i - 1];
            if i > 1 {
              assert f[i - 1] == g[i - 2];
            }
          }
        }
      } else if |ls| > 1 {
        var g := Trace(p, ls[2..], velocity, t);
        TraceFollowsIteration(p, ls[2..], velocity, t);
        assert f == [h, Skipped] + g;
        forall i | 0 <= i < |f|
          ensures i > 0 ==> (f[i].Skipped? <==> Removed(f[i - 1]))
          ensures !f[i].Skipped? ==> f[i] == FateOf(p, ls[i], velocity, t)
        {
          if i > 1 {
            assert f[i] == g[i - 2] && ls[i] == ls[2..][i - 2];
            if i > 2 {
              assert f[i - 1] == g[i - 3];
            }
          }
        }
      }
    }
  }

  /** The index rule leaves no choice: at most one trace obeys it. */
  lemma {:induction false} IterationTraceUnique(p: Platform, ls: seq<Laser>, velocity: int, t: Actor, f: seq<Fate>, g: seq<Fate>)
    requires IterationTrace(p, ls, velocity, t, f) && IterationTrace(p, ls, velocity, t, g)
    ensures f == g
  {
    forall i | 0 <= i < |f|
      ensures f[i] == g[i]
    {
      SameFateAt(p, ls, velocity, t, f, g, i);
    }
  }

  lemma {:induction false} SameFateAt(p: Platform, ls: seq<Laser>, velocity: int, t: Actor, f: seq<Fate>, g: seq<Fate>, i: nat)
    requires IterationTrace(p, ls, velocity, t, f) && IterationTrace(p, ls, velocity, t, g)
    requires i < |f|
    ensures f[i] == g[i]
    decreases i
  {
    if i > 0 {
      SameFateAt(p, ls, velocity, t, f, g, i - 1);
    }
    if i > 0 {
      assert f[i].Skipped? <==> Removed(f[i - 1]);
      assert g[i].Skipped? <==> Removed(g[i - 1]);
    }
    if !f[i].Skipped? {
      assert f[i] == FateOf(p, ls[i], velocity, t) == g[i];
    }
  }

  /** The recursive loop produces exactly what its trace says. */
  lemma {:induction false} SweepMatchesTrace(p: Platform, ls: seq<Laser>, velocity: int, t: Actor)
    ensures var f := Trace(p, ls, velocity, t);
      |f| == |ls| && SweepLasers(p, ls, velocity, t) == Outcome(Survivors(ls, f, velocity), CountStruck(f))
    decreases |ls|
  {
    if ls != [] {
      var f := Trace(p, ls, velocity, t);
      var h := FateOf(p, ls[0], velocity, t);
      if !Removed(h) {
        SweepMatchesTrace(p, ls[1..], velocity, t);
        assert f[1..] == Trace(p, ls[1..], velocity, t);
      } else if |ls| > 1 {
        SweepMatchesTrace(p, ls[2..], velocity, t);
        assert f[1..][1..] == Trace(p, ls[2..], velocity, t);
        assert ls[1..][1..] == ls[2..];
      }
    }
  }

  /** `Object.move_lasers` in full: for the one trace the iterator can follow,
      the cooldown is ticked once, skipped lasers stay where they were, visited
      lasers that stay on screen and miss are moved by `velocity`, lasers that
      leave the screen or strike are removed, the order is kept, and the target
      loses exactly DAMAGE per striking laser; nothing else changes. */
  lemma MoveLasersFollowsIteration(p: Platform, a: Actor, velocity: int, t: Actor, f: seq<Fate>)
    requires IterationTrace(p, a.lasers, velocity, t, f)
    ensures MoveLasers(p, a, velocity, t).0
      == a.(coolDown := Cooldown.Tick(a.coolDown), lasers := Survivors(a.lasers, f, velocity))
    ensures MoveLasers(p, a, velocity, t).1 == t.(health := t.health - DAMAGE * CountStruck(f))
  {
    TraceFollowsIteration(p, a.lasers, velocity, t);
    IterationTraceUnique(p, a.lasers, velocity, t, f, Trace(p, a.lasers, velocity, t));
    SweepMatchesTrace(p, a.lasers, velocity, t);
  }

  /** An actor without lasers (every obstacle) changes nothing but a ready
      counter, which stays ready. */
  lemma UnarmedSweepIsIdle(p: Platform, a: Actor, velocity: int, t: Actor)
    requires Unarmed(a)
    ensures MoveLasers(p, a, velocity, t) == (a, t)
  {
  }

  /** The part of the list the loop has not reached yet. */
  function Pending(ls: seq<Laser>, k: nat): seq<Laser>
  {
    if k <= |ls| then ls[k..] else []
  }

  /** The part it has been past, including a laser it stepped over. */
  function Done(ls: seq<Laser>, k: nat): seq<Laser>
  {
    if k <= |ls| then ls[..k] else ls
  }

  /** One step of the recursive loop, read at position `k` of a list. */
  lemma SweepAt(p: Platform, ls: seq<Laser>, k: nat, velocity: int, t: Actor)
    requires k < |ls|
    ensures var m := Move(ls[k], velocity);
      var r := SweepLasers(p, ls[k..], velocity, t);
      var hit := if OffScreen(m, HEIGHT) then 0 else 1;
      if OffScreen(m, HEIGHT) || Hits(p, m, t.sprite, t.x, t.y) then
        if k + 1 < |ls| then
          r == Outcome([ls[k + 1]] + SweepLasers(p, ls[k + 2..], velocity, t).lasers,
                       SweepLasers(p, ls[k + 2..], velocity, t).hits + hit)
        else r == Outcome([], hit)
      else r == Outcome([m] + SweepLasers(p, ls[k + 1..], velocity, t).lasers,
                        SweepLasers(p, ls[k + 1..], velocity, t).hits)
  {
    assert ls[k..][0] == ls[k];
    assert ls[k..][1..] == ls[k + 1..];
    if k + 1 < |ls| {
      assert ls[k..][1] == ls[k + 1];
      assert ls[k..][2..] == ls[k + 2..];
    }
  }

  /** Where the iterator stands after deleting the laser at position `k`. */
  lemma AfterRemoval(before: seq<Laser>, k: nat, ls: seq<Laser>)
    requires k < |before| && ls == before[..k] + before[k + 1..]
    ensures k + 1 < |before| ==> Done(ls, k + 1) == before[..k] + [before[k + 1]] && Pending(ls, k + 1) == before[k + 2..]
    ensures k + 1 == |before| ==> Done(ls, k + 1) == before[..k] && Pending(ls, k + 1) == []
  {
    if k + 1 < |before| {
      assert ls[..k + 1] == before[..k] + [before[k + 1]];
      assert ls[k + 1..] == before[k + 2..];
    }
  }

  /** Where it stands after moving the laser at position `k` in place. */
  lemma AfterKeep(before: seq<Laser>, k: nat, m: Laser)
    requires k < |before|
    ensures Done(before[k := m], k + 1) == before[..k] + [m]
    ensures Pending(before[k := m], k + 1) == before[k + 1..]
  {
  }

  /** One pass of the loop body leaves the overall result unchanged: what it
      moves past plus what is still to come gives the same list and hit count. */
  lemma LoopStep(p: Platform, before: seq<Laser>, k: nat, velocity: int, t: Actor, after: seq<Laser>)
    requires k < |before|
    requires var m := Move(before[k], velocity);
      after == if OffScreen(m, HEIGHT) || Hits(p, m, t.sprite, t.x, t.y)
               then before[..k] + before[k + 1..] else before[k := m]
    ensures Done(before, k) + SweepLasers(p, Pending(before, k), velocity, t).lasers
      == Done(after, k + 1) + SweepLasers(p, Pending(after, k + 1), velocity, t).lasers
    ensures var m := Move(before[k], velocity);
      SweepLasers(p, Pending(before, k), velocity, t).hits
      == SweepLasers(p, Pending(after, k + 1), velocity, t).hits
         + (if !OffScreen(m, HEIGHT) && Hits(p, m, t.sprite, t.x, t.y) then 1 else 0)
  {
    var m := Move(before[k], velocity);
    SweepAt(p, before, k, velocity, t);
    if OffScreen(m, HEIGHT) || Hits(p, m, t.sprite, t.x, t.y) {
      AfterRemoval(before, k, after);
      if k + 1 < |before| {
        assert before[..k] + ([before[k + 1]] + SweepLasers(p, before[k + 2..], velocity, t).lasers)
          == (before[..k] + [before[k + 1]]) + SweepLasers(p, before[k + 2..], velocity, t).lasers;
      } else {
        assert SweepLasers(p, Pending(after, k + 1), velocity, t) == Outcome([], 0);
      }
    } else {
      AfterKeep(before, k, m);
      assert before[..k] + ([m] + SweepLasers(p, before[k + 1..], velocity, t).lasers)
        == (before[..k] + [m]) + SweepLasers(p, before[k + 1..], velocity, t).lasers;
    }
  }

  /** `Object.move_lasers` as Python runs it: the iterator reads `lasers[k]`
      and advances `k`; the body moves that laser in place and may delete it from
      the list. Same result as the recursive model. */
  method MoveLasersLoop(p: Platform, a: Actor, velocity: int, t: Actor) returns (a': Actor, t': Actor)
    ensures (a', t') == MoveLasers(p, a, velocity, t)
  {
    ghost var out := SweepLasers(p, a.lasers, velocity, t);
    var ls := a.lasers;
    var health := t.health;
    var k: nat := 0;
    while k < |ls|
      invariant k <= |ls| + 1
      invariant out.lasers == Done(ls, k) + SweepLasers(p, Pending(ls, k), velocity, t).lasers
      invariant t.health - DAMAGE * out.hits == health - DAMAGE * SweepLasers(p, Pending(ls, k), velocity, t).hits
      decreases |ls| + 1 - k
    {
      ghost var before := ls;
      var m := Move(ls[k], velocity);
      ls := ls[k := m];
      if OffScreen(m, HEIGHT) {
        ls := ls[..k] + ls[k + 1..];
        assert ls == before[..k] + before[k + 1..];
      } else if Hits(p, m, t.sprite, t.x, t.y) {
        health := health - DAMAGE;
        ls := ls[..k] + ls[k + 1..];
        assert ls == before[..k] + before[k + 1..];
      }
      LoopStep(p, before, k, velocity, t, ls);
      k := k + 1;
    }
    assert SweepLasers(p, Pending(ls, k), velocity, t) == Outcome([], 0);
    assert Done(ls, k) + [] == Done(ls, k);
    a' := CoolDown(a).(lasers := Done(ls, k));
    t' := t.(health := health);
  }
}
